=== FILE: README.md ===
# GuardDuty to ACL: the slot-rotation core, in Dafny

The Lambda function reacts to a GuardDuty finding about a remote host. It
blocks that host in a VPC network ACL and in two WAF IP sets: the ALB
(regional) set and the CloudFront set. A network ACL has ten reserved
rule numbers, 71 to 80. A DynamoDB state table keeps one item per
occupied slot: `NetACLId`, `CreatedAt`, `HostIp`, `RuleNo` and `Region`.
When all ten slots are taken, the oldest block is evicted and its rule
number is reused.

This project models `update_nacl` and the functions it relies on. The
three stores are immutable values: the state table as a sequence of
records, each network ACL as its list of entries, and each WAF IP set as a
set of IPs. Each backend call becomes a pure state update that always
succeeds. One invocation becomes `Rotation.UpdateNacl`. It returns one of:

- `NoOp`: the host is already recorded for that network ACL;
- `Halt(reason)`: a point where the function stops before changing
  anything;
- `Inserted(post, ruleNo)`: the empty-table and has-space cases;
- `Rotated(post, ruleNo, evicted)`: the full case.

Modules, one per file:

- `Seqs` (`seqs.dfy`): the list filter and map behind queries, scans and
  the range filter, with the lemmas about them.
- `Sorting` (`sorting.dfy`): `list.sort()` and the sorted-list comparison
  of the sync gate.
- `ReservedRange` (`reserved.dfy`): the range 71..80, the lowest free slot,
  and the counting facts about the range.
- `Stores` (`stores.dfy`): the data model and the state effect of each
  backend call.
- `Rotation` (`rotation.dfy`): `update_nacl` itself.
- `Invariant` (`invariant.dfy`): the invariant kept across invocations,
  and its preservation.
- `RotationFacts` (`facts.dfy`): the promises of one invocation.
- `Runs` (`runs.dfy`): sequences of findings, and the capacity property.

The invariant (`Invariant.Valid`) has these parts:

- the state table is in `CreatedAt` order;
- for every network ACL, the table's rule numbers and the live reserved
  rule numbers are equal as multisets;
- no egress entry uses a reserved number;
- no two records of one network ACL share a rule number.

From the invariant follow the bounds the rotation is built to keep: at
most 10 records per network ACL, and every rule number in 71..80.

Points where the model follows the program's lines closely, because a
looser reading would change behaviour:

- **Still-active check.** The comment at line 234 says that an IP
  recorded in a fresh finding stays blocked. The scan at line 235 filters
  on the *new* host's IP (`host_ip`), not on the evicted host's
  (`oldhostip`), and it covers every network ACL. The model does what line
  235 does. `RotationFacts.StillActiveGuardsWafRemoval` states the
  consequence: the evicted host leaves both WAF IP sets unless some newer
  record has the new host's IP. Other records of the evicted host do not
  matter.
- **Sync gate.** Line 192 compares the sorted lists, so duplicate rule
  numbers also trip it. The set built at line 190 is only logged. The
  model compares sorted lists, and `Sorting.SortedAgreeIffPermutation`
  proves that this is multiset equality.
- **Full case.** Line 216 tests `rulecount >= 10`, not equality, and the
  model does the same.
- **Halting.** The `exit()` calls at lines 196 and 264 become `Halt`. A
  halted invocation leaves the stores as they were.

The clock is a parameter. Each invocation gets the time `now` that
`create_ddb_rule` would stamp. Its precondition is that `now` is later
than every `CreatedAt` already in the table.

## Model

All source paths are in `lambda/guardduty_to_acl_lambda.py`.

| member | source | states |
|---|---|---|
| Stores.GetNaclRules | lambda/guardduty_to_acl_lambda.py:107-122 | the result holds every entry's rule number that lies in 71..80, with its multiplicity, and nothing outside 71..80; egress entries are not excluded |
| Stores.Query | lambda/guardduty_to_acl_lambda.py:169-174 | a record is returned exactly when it belongs to the network ACL |
| Stores.DdbRuleNumbers | lambda/guardduty_to_acl_lambda.py:181-185 | the list has one number per record of the network ACL, in query order, and the i-th number is the i-th record's RuleNo |
| Stores.QueryHost | lambda/guardduty_to_acl_lambda.py:157-160 | a record is returned exactly when it belongs to the network ACL and has the given HostIp |
| Stores.ScanNewer | lambda/guardduty_to_acl_lambda.py:235 | a record of any network ACL is returned exactly when its CreatedAt is greater than the bound and its HostIp is the given IP |
| Stores.DeleteDdbRule | lambda/guardduty_to_acl_lambda.py:355-366 | the records kept are exactly those whose key (NetACLId, CreatedAt) differs from the deleted key |
| Stores.CreateDdbRule | lambda/guardduty_to_acl_lambda.py:329-343 | put_item leaves the new item plus every old item with a different key (an item with the same key is replaced) |
| Stores.CreateFresh | lambda/guardduty_to_acl_lambda.py:333-343 | with a timestamp later than every item, put_item appends the new record and replaces nothing |
| Stores.CreateNetaclRule | lambda/guardduty_to_acl_lambda.py:282-297 | the entries afterwards are the old ones plus an ingress deny entry for ip/32, all protocols, ports 0..65535, at the rule number |
| Stores.CreateTakesSlot | lambda/guardduty_to_acl_lambda.py:282-297 | creating a rule at a reserved number appends exactly that number to the reserved rule list |
| Stores.DeleteNetaclRule | lambda/guardduty_to_acl_lambda.py:309-317 | delete_entry with Egress=False removes the ingress entries with that number, and keeps egress entries and every other number |
| Stores.DeleteFreesSlot | lambda/guardduty_to_acl_lambda.py:309-317 | when no egress entry uses a reserved number, deleting ingress rule n removes n from the reserved rule list and changes nothing else in it |
| Stores.WafUpdateIpSet | lambda/guardduty_to_acl_lambda.py:47-76 | after INSERT the IP is in the set; after DELETE it is not; every other IP's membership is unchanged |
| Sorting.Sort | lambda/guardduty_to_acl_lambda.py:188-189 | the result is ascending and is a permutation of the input |
| Sorting.SortedUnique | lambda/guardduty_to_acl_lambda.py:188-192 | two ascending lists with the same elements and multiplicities are equal |
| Sorting.SameSorted | lambda/guardduty_to_acl_lambda.py:188-192 | the gate compares the two lists after sorting each; it passes only for lists of equal length (that it passes exactly for permutations is `Sorting.SortedAgreeIffPermutation`) |
| Sorting.SortedAgreeIffPermutation | lambda/guardduty_to_acl_lambda.py:188-192 | the sorted lists are equal if and only if the two lists are permutations of each other |
| ReservedRange.LowestFree | lambda/guardduty_to_acl_lambda.py:199-201 | the number returned is in 71..80, is not used, and every smaller reserved number is used; there is none exactly when all of 71..80 are used |
| ReservedRange.FreeSlotExists | lambda/guardduty_to_acl_lambda.py:199-201 | fewer than 10 used numbers always leave a free slot, so `min` never sees an empty list |
| ReservedRange.DistinctSlotsWithinCapacity | lambda/guardduty_to_acl_lambda.py:179 | duplicate-free numbers in 71..80 number at most 10 |
| ReservedRange.FullRangeNeedsCapacity | lambda/guardduty_to_acl_lambda.py:199-201 | a list that holds every number of 71..80 has at least 10 elements |
| Rotation.OldestIndex | lambda/guardduty_to_acl_lambda.py:216-226 | the index returned is that of a record with the smallest CreatedAt of the query |
| Rotation.UpdateNacl | lambda/guardduty_to_acl_lambda.py:150-166 | the invocation is a no-op exactly when the host is already recorded for the network ACL; otherwise it is the reconciliation below |
| Rotation.Reconcile | lambda/guardduty_to_acl_lambda.py:166-273 | halts on an unknown network ACL, on a sync mismatch when records exist, and on live reserved rules when none exist; rotates exactly when synced and at least 10 records exist; inserts exactly when synced with fewer; each condition is both necessary and sufficient |
| Rotation.InsertLowest | lambda/guardduty_to_acl_lambda.py:199-208 | the has-space slot is the lowest reserved number not live, and the block is installed there |
| Rotation.RotateOldest | lambda/guardduty_to_acl_lambda.py:216-246 | the evicted record is one of the network ACL's records with no older one, its rule number is reused, and the block is installed after the eviction |
| Rotation.Evict | lambda/guardduty_to_acl_lambda.py:229-239 | eviction keeps the set of network ACLs; the table afterwards holds exactly the records whose key differs from the evicted record's, of every ACL; the ACL's entries afterwards are exactly the old ones that are egress or numbered differently; other ACLs are untouched; each WAF IP set can lose only the evicted host (the exact WAF sets are `RotationFacts.RotationWafSets` with `RotationFacts.ScanAfterDelete`; the rule-number lists are `Invariant.EvictTargetConsistent`) |
| Rotation.Install | lambda/guardduty_to_acl_lambda.py:203-208 | installation (also lines 241-246 and 268-271) records the host at the rule number stamped `now`, keeps every record under another key and adds nothing else to the table, puts the host's deny entry in the network ACL, leaves other ACLs' entries untouched, and adds the host to both WAF IP sets |
| Invariant.ValidBounds | lambda/guardduty_to_acl_lambda.py:179-201 | in a valid state, slots are exclusive, every rule number is in 71..80, table and live numbers agree, and a network ACL has at most 10 records |
| Invariant.EmptyTableValid | lambda/guardduty_to_acl_lambda.py:253-264 | an empty table over network ACLs with no reserved entries is a valid starting state |
| Invariant.InstallKeepsValid | lambda/guardduty_to_acl_lambda.py:203-208 | installing at a free reserved slot keeps the state valid and appends the slot to both the table's and the live rule numbers |
| Invariant.InsertedKeepsValid | lambda/guardduty_to_acl_lambda.py:199-214 | an invocation that inserts, in the has-space or empty-table case, maps a valid state to a valid state |
| Invariant.EvictTableSide | lambda/guardduty_to_acl_lambda.py:224-232 | deleting the item keyed by a record's CreatedAt removes exactly that record's rule number from the network ACL's rule numbers |
| Invariant.EvictKeepsValid | lambda/guardduty_to_acl_lambda.py:229-239 | evicting any record of a network ACL, with the WAF removal that follows, keeps the state valid |
| Invariant.EvictTargetConsistent | lambda/guardduty_to_acl_lambda.py:224-232 | evicting a record of the network ACL keeps that ACL consistent and removes the record's rule number from both the table's and the live rule numbers, leaving the others in order |
| Invariant.RotatedFacts | lambda/guardduty_to_acl_lambda.py:216-246 | a rotation from a valid state reuses the evicted record's rule number: both rule-number lists lose it and then regain it |
| Invariant.UpdateKeepsValid | lambda/guardduty_to_acl_lambda.py:150-273 | every invocation, whatever its outcome, maps a valid state to a valid state |
| RotationFacts.InstallEstablishesBlock | lambda/guardduty_to_acl_lambda.py:203-208 | after installation the host is recorded at the slot, its deny entry is in the network ACL, the slot is live, and the host is in both WAF IP sets |
| RotationFacts.SuccessInstallsBlock | lambda/guardduty_to_acl_lambda.py:199-271 | every non-duplicate, non-halting invocation leaves a record (host, new rule number), the host's ingress deny entry at that number in the network ACL, that rule live, and the host in both WAF IP sets |
| RotationFacts.SuccessKeepsStoresInStep | lambda/guardduty_to_acl_lambda.py:184-271 | from a valid state, after a successful invocation the table's rule numbers equal the live reserved ones, all are in 71..80, and there are at most 10 records |
| RotationFacts.HasSpaceTakesLowestFreeSlot | lambda/guardduty_to_acl_lambda.py:199-214 | with fewer than 10 records and the gate passing, the new rule number is the lowest one in 71..80 that is not live, and the records and live rules each grow by exactly that slot |
| RotationFacts.EmptyTableStartsAtLowestSlot | lambda/guardduty_to_acl_lambda.py:253-271 | with no records, the invocation halts if reserved rules are live, and otherwise inserts at 71 |
| RotationFacts.FullEvictsOldest | lambda/guardduty_to_acl_lambda.py:216-246 | when full, from a valid state, the invocation rotates; the record evicted is the network ACL's first record, strictly older than every other one, and its rule number goes to the new host |
| RotationFacts.FullShiftsRecords | lambda/guardduty_to_acl_lambda.py:216-246 | when full, from a valid state, the network ACL's records afterwards are the old ones less the oldest, followed by the new host's record, so the record count is unchanged |
| RotationFacts.RotatedRuleSets | lambda/guardduty_to_acl_lambda.py:224-246 | after a rotation from a valid state, the table's and the live rule numbers of the network ACL are the same sets as before |
| RotationFacts.StillActiveGuardsWafRemoval | lambda/guardduty_to_acl_lambda.py:234-246 | the evicted host leaves both WAF IP sets exactly when no record newer than it has the new host's IP; the new host is then added to both sets |
| RotationFacts.ScanAfterDelete | lambda/guardduty_to_acl_lambda.py:232-236 | scanning after the delete finds a newer record of the host exactly when the table had one before the delete |
| RotationFacts.UpdateTableGrowth | lambda/guardduty_to_acl_lambda.py:150-273 | an invocation adds only records stamped with its own time, and creates or drops no network ACL |
| RotationFacts.RepeatIsNoOp | lambda/guardduty_to_acl_lambda.py:157-164 | after a successful invocation, invoking it again for the same host and network ACL, later and from any region, does nothing |
| RotationFacts.SameSecondLosesRecord | lambda/guardduty_to_acl_lambda.py:329-343 | two installations on one network ACL stamped with the same second leave the first host's deny entry live with no record for its rule number, so the two rule-number lists disagree and the sync gate fails from then on |
| Runs.Run | lambda/guardduty_to_acl_lambda.py:150-273 | a sequence of invocations with increasing clock readings keeps a valid state valid and keeps the set of network ACLs |
| Runs.StepKeepsTimely | lambda/guardduty_to_acl_lambda.py:329-343 | the items one invocation writes are older than every later invocation's clock reading |
| Runs.RunWithinCapacity | lambda/guardduty_to_acl_lambda.py:179-271 | from an empty table, after any run, every network ACL has at most 10 records, all in 71..80, matching the live reserved rules |
| Runs.FirstBlockScenario | lambda/guardduty_to_acl_lambda.py:253-271 | blocking 10.0.0.5 on an empty network ACL inserts a single record at rule 71, one ingress deny entry for 10.0.0.5/32 at 71, and the host in both WAF IP sets |

## Left out

- boto3 clients and sessions, and the shapes of the `describe_network_acls` responses. Every backend call is modelled as succeeding.
- The HTTP status checks and the True/False results of `update_nacl` and the create/delete helpers (lines 275-278, 299-305, 319-325, 345-351, 368-374). The model has no failing backend, so these have no effect on the stores.
- The retry loop, `time.sleep` and `math.pow` backoff of `waf_update_ip_set` (lines 55-76). These are I/O plumbing with floating point; one update is one set change.
- Stores.WafUpdateIpSet: the choice between the regional and the global WAF client (lines 49-53) is not modelled. The two sets are two fields of the state. The set holds the bare IP rather than the `ip/32` descriptor.
- `get_netacl_id` (lines 80-103). It is an EC2 lookup; the network ACL id is an input. An id that is not in the state's map halts with `NaclNotFound`, in the place of the exception `describe_network_acls` would raise.
- `get_nacl_meta` (lines 126-146). It is never called, and it reads names it never defines.
- `admin_notify` and `lambda_handler` (lines 378 onward). They are SNS notification and event-parsing glue.
- Concurrent invocations, and a backend failure part-way through an invocation. The model covers one invocation at a time, each run to completion.
- Wall-clock time. `time.time()` at line 333 becomes the parameter `now`; the unused reading at line 155 is dropped.
- Rotation.UpdateNacl: requires `Fresh`, a clock reading later than every stored `CreatedAt`. The program does not guarantee this: `int(time.time())` at line 333 has one-second resolution and is not monotonic across Lambda hosts. Two invocations for one network ACL in the same second write the same key, and the `put_item` at line 335 replaces the first item. The first host's rule then stays live with no record, so every later invocation for that ACL halts at line 196 and that rule is never evicted. `Fresh` excludes this case. `RotationFacts.SameSecondLosesRecord` shows what happens without it.
- Logging.
- DynamoDB pagination and the 1 MB page limit of `query` and `scan`. Each query or scan sees the whole table.
- The string round trip of `RuleNo`: written with `str()` and read with `int()`. It is the identity on the numbers the function writes, so the record holds an int.
- The sort algorithm. `list.sort()` is Timsort; the model sorts by insertion. Both give the unique ascending permutation (`Sorting.SortedUnique`).
- Rotation.OldestIndex: DynamoDB returns the item with the smallest sort key. Sort keys are unique within a partition, so there is one such item. The model's function returns a smallest-CreatedAt record without claiming it is unique. Uniqueness follows from the invariant (`Invariant.OldestKeyIsUnique`, `RotationFacts.FullEvictsOldest`).

## Findings

| source | as written | input that shows it | evidently intended | confidence | as-written member | corrected member |
|---|---|---|---|---|---|---|
| lambda/guardduty_to_acl_lambda.py:333-343 | the state-table key is (`NetACLId`, `int(time.time())`), so two blocks on one network ACL in the same second share a key and the second `put_item` replaces the first item | two findings for different hosts on one network ACL handled within one second: the table keeps one record, the network ACL keeps both deny entries, and the sync gate fails at line 192 for every later invocation | every installation writes an item of its own: a `CreatedAt` later than every stored one, under which every invocation keeps the table and the live rules in step (`Invariant.UpdateKeepsValid`) | not executed; high that the replacement happens, medium that two findings arrive within one second | RotationFacts.SameSecondLosesRecord | Rotation.UpdateNacl |

=== FILE: facts.dfy ===
/**
  What one invocation of update_nacl promises: the slot it takes in each of
  the three cases, FIFO eviction when full, the still-active guard on the
  WAF removal, the block it leaves installed in all three stores, and that
  repeating it for the same host does nothing.
*/
module RotationFacts {
  import opened Seqs
  import opened ReservedRange
  import opened Stores
  import opened Rotation
  import opened Invariant

  // ---------------------------------------------------------------------
  // The block an invocation installs
  // ---------------------------------------------------------------------

  /** Installing at slot `n` leaves the host recorded, its deny entry in the
      network ACL, `n` among the live reserved rules and the host in both
      WAF IP sets. */
  lemma InstallEstablishesBlock(s: State, acl: AclId, ip: Ip, region: string, now: int, n: int)
    requires acl in s.nacls && InReserved(n)
    ensures var s' := Install(s, acl, ip, region, now, n);
      && acl in s'.nacls
      && Record(acl, now, ip, n, region) in s'.table
      && HostRecorded(s'.table, acl, ip)
      && DenyEntry(ip, n) in s'.nacls[acl]
      && n in GetNaclRules(s'.nacls[acl])
      && ip in s'.albIpSet && ip in s'.cloudfrontIpSet
  {
    var s' := Install(s, acl, ip, region, now, n);
    CreateTakesSlot(s.nacls[acl], ip, n);
    assert GetNaclRules(s'.nacls[acl])[|GetNaclRules(s.nacls[acl])|] == n;
    assert Record(acl, now, ip, n, region) in s'.table;
  }

  /** A rule number of the table is live when the gate passes. */
  lemma SyncedSlotIsReserved(s: State, acl: AclId, r: Record)
    requires acl in s.nacls && Synced(s, acl)
    requires r in Query(s.table, acl)
    ensures InReserved(r.ruleNo) && r.ruleNo in GetNaclRules(s.nacls[acl])
  {
    var q := Query(s.table, acl);
    var i :| 0 <= i < |q| && q[i] == r;
    assert DdbRuleNumbers(s.table, acl)[i] == r.ruleNo;
    assert r.ruleNo in multiset(DdbRuleNumbers(s.table, acl));
  }

  /** Every invocation that neither finds a duplicate nor halts leaves the
      host recorded with the new rule number, the host's deny entry at that
      number in the network ACL, that rule live, and the host in both WAF
      IP sets. */
  lemma SuccessInstallsBlock(s: State, acl: AclId, ip: Ip, region: string, now: int)
    requires Fresh(s.table, now)
    requires UpdateNacl(s, acl, ip, region, now).Inserted? || UpdateNacl(s, acl, ip, region, now).Rotated?
    ensures var post := After(s, UpdateNacl(s, acl, ip, region, now));
      var n := UpdateNacl(s, acl, ip, region, now).ruleNo;
      && acl in s.nacls && acl in post.nacls
      && InReserved(n)
      && Record(acl, now, ip, n, region) in post.table
      && DenyEntry(ip, n) in post.nacls[acl]
      && n in GetNaclRules(post.nacls[acl])
      && ip in post.albIpSet && ip in post.cloudfrontIpSet
  {
    var o := UpdateNacl(s, acl, ip, region, now);
    if o.Inserted? {
      InsertedInstallsBlock(s, acl, ip, region, now);
    } else {
      RotatedInstallsBlock(s, acl, ip, region, now);
    }
  }

  lemma InsertedInstallsBlock(s: State, acl: AclId, ip: Ip, region: string, now: int)
    requires Fresh(s.table, now)
    requires UpdateNacl(s, acl, ip, region, now).Inserted?
    ensures var o := UpdateNacl(s, acl, ip, region, now);
      && acl in s.nacls && acl in o.post.nacls
      && InReserved(o.ruleNo)
      && Record(acl, now, ip, o.ruleNo, region) in o.post.table
      && DenyEntry(ip, o.ruleNo) in o.post.nacls[acl]
      && o.ruleNo in GetNaclRules(o.post.nacls[acl])
      && ip in o.post.albIpSet && ip in o.post.cloudfrontIpSet
  {
    var o := UpdateNacl(s, acl, ip, region, now);
    InstallEstablishesBlock(s, acl, ip, region, now, o.ruleNo);
  }

  lemma RotatedInstallsBlock(s: State, acl: AclId, ip: Ip, region: string, now: int)
    requires Fresh(s.table, now)
    requires UpdateNacl(s, acl, ip, region, now).Rotated?
    ensures var o := UpdateNacl(s, acl, ip, region, now);
      && acl in s.nacls && acl in o.post.nacls
      && InReserved(o.ruleNo)
      && Record(acl, now, ip, o.ruleNo, region) in o.post.table
      && DenyEntry(ip, o.ruleNo) in o.post.nacls[acl]
      && o.ruleNo in GetNaclRules(o.post.nacls[acl])
      && ip in o.post.albIpSet && ip in o.post.cloudfrontIpSet
  {
    var o := UpdateNacl(s, acl, ip, region, now);
    SyncedSlotIsReserved(s, acl, o.evicted);
    InstallEstablishesBlock(Evict(s, acl, o.evicted, ip), acl, ip, region, now, o.ruleNo);
  }

  /** From a valid state, every successful invocation leaves the state
      table's rule numbers equal to the live reserved rules, all in 71..80,
      with at most Capacity records for the network ACL. */
  lemma SuccessKeepsStoresInStep(s: State, acl: AclId, ip: Ip, region: string, now: int)
    requires Valid(s) && Fresh(s.table, now)
    requires UpdateNacl(s, acl, ip, region, now).Inserted? || UpdateNacl(s, acl, ip, region, now).Rotated?
    ensures var post := After(s, UpdateNacl(s, acl, ip, region, now));
      && acl in post.nacls
      && (forall x :: x in DdbRuleNumbers(post.table, acl) <==> x in GetNaclRules(post.nacls[acl]))
      && (forall r :: r in Query(post.table, acl) ==> InReserved(r.ruleNo))
      && |Query(post.table, acl)| <= Capacity
  {
    SuccessInstallsBlock(s, acl, ip, region, now);
    UpdateKeepsValid(s, acl, ip, region, now);
    ValidBounds(After(s, UpdateNacl(s, acl, ip, region, now)), acl);
  }

  // ---------------------------------------------------------------------
  // The slot choice
  // ---------------------------------------------------------------------

  /** With fewer than Capacity records and the gate passing, the host goes
      to the lowest reserved number that is not live, and the network ACL's
      records and live rules each grow by exactly that one slot. */
  lemma HasSpaceTakesLowestFreeSlot(s: State, acl: AclId, ip: Ip, region: string, now: int)
    requires Fresh(s.table, now) && acl in s.nacls && Synced(s, acl)
    requires !HostRecorded(s.table, acl, ip) && |Query(s.table, acl)| < Capacity
    ensures var o := UpdateNacl(s, acl, ip, region, now);
      var live := GetNaclRules(s.nacls[acl]);
      && o.Inserted?
      && InReserved(o.ruleNo) && o.ruleNo !in live
      && (forall m :: RangeLo <= m < o.ruleNo ==> m in live)
      && Query(o.post.table, acl) == Query(s.table, acl) + [Record(acl, now, ip, o.ruleNo, region)]
      && |Query(o.post.table, acl)| == |Query(s.table, acl)| + 1
      && GetNaclRules(o.post.nacls[acl]) == live + [o.ruleNo]
  {
    var o := UpdateNacl(s, acl, ip, region, now);
    var rec := Record(acl, now, ip, o.ruleNo, region);
    CreateFresh(s.table, acl, ip, o.ruleNo, region, now);
    QueryAppend(s.table, rec, acl);
    CreateTakesSlot(s.nacls[acl], ip, o.ruleNo);
  }

  /** With no records for the network ACL, the host goes to rule 71, unless
      reserved rules are already live, in which case nothing happens. */
  lemma EmptyTableStartsAtLowestSlot(s: State, acl: AclId, ip: Ip, region: string, now: int)
    requires Fresh(s.table, now) && acl in s.nacls && |Query(s.table, acl)| == 0
    ensures var o := UpdateNacl(s, acl, ip, region, now);
      && !HostRecorded(s.table, acl, ip)
      && (|GetNaclRules(s.nacls[acl])| > 0 ==> o == Halt(PreexistingRules))
      && (|GetNaclRules(s.nacls[acl])| == 0 ==> o.Inserted? && o.ruleNo == RangeLo)
  {
  }

  /** When full, in a valid state, the record evicted is the network ACL's
      first — the oldest — record, strictly older than every other record
      of that ACL, and its rule number goes to the new host. */
  lemma FullEvictsOldest(s: State, acl: AclId, ip: Ip, region: string, now: int)
    requires Valid(s) && Fresh(s.table, now) && acl in s.nacls
    requires !HostRecorded(s.table, acl, ip) && |Query(s.table, acl)| >= Capacity
    ensures var o := UpdateNacl(s, acl, ip, region, now);
      var q := Query(s.table, acl);
      && o.Rotated?
      && o.evicted == q[0]
      && (forall r :: r in q && r != q[0] ==> q[0].createdAt < r.createdAt)
      && o.ruleNo == q[0].ruleNo
  {
    var o := UpdateNacl(s, acl, ip, region, now);
    ChronologicalFilter(AclIs(acl), s.table);
    OldestIsFirst(Query(s.table, acl), o.evicted);
  }

  /** When full, in a valid state, the network ACL's records after the
      rotation are its records before, less the first, followed by the new
      host's record: the record count is unchanged. */
  lemma FullShiftsRecords(s: State, acl: AclId, ip: Ip, region: string, now: int)
    requires Valid(s) && Fresh(s.table, now) && acl in s.nacls
    requires !HostRecorded(s.table, acl, ip) && |Query(s.table, acl)| >= Capacity
    ensures var o := UpdateNacl(s, acl, ip, region, now);
      var q := Query(s.table, acl);
      && o.Rotated?
      && Query(o.post.table, acl) == q[1..] + [Record(acl, now, ip, o.ruleNo, region)]
      && |Query(o.post.table, acl)| == |q|
  {
    var o := UpdateNacl(s, acl, ip, region, now);
    FullEvictsOldest(s, acl, ip, region, now);
    ChronologicalFilter(AclIs(acl), s.table);
    EvictOldestQuery(s, acl, ip, region, now, o.ruleNo);
  }

  /** Evicting the first record of an ACL in timestamp order and installing
      a new one shifts that ACL's records by one. */
  lemma EvictOldestQuery(s: State, acl: AclId, ip: Ip, region: string, now: int, n: int)
    requires acl in s.nacls && Fresh(s.table, now)
    requires |Query(s.table, acl)| > 0 && Chronological(Query(s.table, acl))
    ensures var q := Query(s.table, acl);
      Query(Install(Evict(s, acl, q[0], ip), acl, ip, region, now, n).table, acl)
        == q[1..] + [Record(acl, now, ip, n, region)]
  {
    var q := Query(s.table, acl);
    OldestKeyIsUnique(q, 0);
    var s1 := Evict(s, acl, q[0], ip);
    QueryAfterDelete(s.table, acl, q[0].createdAt, acl);
    FilterDropsHead(KeyIsNot(acl, q[0].createdAt), q);
    assert Fresh(s1.table, now);
    CreateFresh(s1.table, acl, ip, n, region, now);
    QueryAppend(s1.table, Record(acl, now, ip, n, region), acl);
  }

  /** A rotation removes the evicted rule number from both lists and adds
      it back, so both keep the same numbers. */
  lemma RotatedRuleSets(s: State, acl: AclId, ip: Ip, region: string, now: int)
    requires Valid(s) && Fresh(s.table, now)
    requires UpdateNacl(s, acl, ip, region, now).Rotated?
    ensures var o := UpdateNacl(s, acl, ip, region, now);
      && acl in s.nacls
      && (forall x :: x in DdbRuleNumbers(o.post.table, acl) <==> x in DdbRuleNumbers(s.table, acl))
      && (forall x :: x in GetNaclRules(o.post.nacls[acl]) <==> x in GetNaclRules(s.nacls[acl]))
  {
    var o := UpdateNacl(s, acl, ip, region, now);
    RotatedFacts(s, acl, ip, region, now);
    var q := Query(s.table, acl);
    var k := OldestIndex(q);
    assert DdbRuleNumbers(s.table, acl)[k] == o.ruleNo;
    ValidBounds(s, acl);
    FilterThenAdd(o.ruleNo, DdbRuleNumbers(s.table, acl));
    FilterThenAdd(o.ruleNo, GetNaclRules(s.nacls[acl]));
  }

  /** In timestamp order the oldest record is the first. */
  lemma OldestIsFirst(q: seq<Record>, r: Record)
    requires Chronological(q) && r in q
    requires forall x :: x in q ==> r.createdAt <= x.createdAt
    ensures r == q[0]
    ensures forall x :: x in q && x != q[0] ==> q[0].createdAt < x.createdAt
  {
    forall x | x in q && x != q[0] ensures q[0].createdAt < x.createdAt {
      var j :| 0 <= j < |q| && q[j] == x;
      assert j != 0;
    }
  }

  /** A filter that rejects the head of a list and keeps the rest. */
  lemma FilterDropsHead(p: Record -> bool, q: seq<Record>)
    requires |q| > 0 && !p(q[0])
    requires forall i :: 0 < i < |q| ==> p(q[i])
    ensures Filter(p, q) == q[1..]
  {
    FilterCons(p, q);
    forall x | x in q[1..] ensures p(x) {
      var i :| 0 <= i < |q[1..]| && q[1..][i] == x;
      assert q[i + 1] == x;
    }
    FilterKeepsAll(p, q[1..]);
  }

  /** Removing a member and adding it back gives the same elements. */
  lemma FilterThenAdd(n: int, s: seq<int>)
    requires n in s
    ensures forall x :: x in Filter(IsNot(n), s) + [n] <==> x in s
  {
  }

  // ---------------------------------------------------------------------
  // The still-active guard
  // ---------------------------------------------------------------------

  /** On a rotation the evicted host is another host than the new one, and
      it leaves both WAF IP sets exactly when no record, of any network
      ACL, newer than the evicted record has the NEW host's IP; the new host
      is then added to both sets. */
  lemma StillActiveGuardsWafRemoval(s: State, acl: AclId, ip: Ip, region: string, now: int)
    requires Fresh(s.table, now)
    requires UpdateNacl(s, acl, ip, region, now).Rotated?
    ensures var o := UpdateNacl(s, acl, ip, region, now);
      var active := exists r :: r in s.table && r.createdAt > o.evicted.createdAt && r.hostIp == ip;
      && o.evicted.hostIp != ip
      && o.post.albIpSet == (if active then s.albIpSet else s.albIpSet - {o.evicted.hostIp}) + {ip}
      && o.post.cloudfrontIpSet == (if active then s.cloudfrontIpSet else s.cloudfrontIpSet - {o.evicted.hostIp}) + {ip}
  {
    var o := UpdateNacl(s, acl, ip, region, now);
    assert o.evicted in s.table && o.evicted.aclId == acl;
    RotationWafSets(s, acl, o.evicted, ip, region, now, o.ruleNo);
  }

  /** The WAF IP sets after evicting `oldest` and installing `ip`. */
  lemma RotationWafSets(s: State, acl: AclId, oldest: Record, ip: Ip, region: string, now: int, n: int)
    requires acl in s.nacls
    ensures var post := Install(Evict(s, acl, oldest, ip), acl, ip, region, now, n);
      var active := exists r :: r in s.table && r.createdAt > oldest.createdAt && r.hostIp == ip;
      && post.albIpSet == (if active then s.albIpSet else s.albIpSet - {oldest.hostIp}) + {ip}
      && post.cloudfrontIpSet == (if active then s.cloudfrontIpSet else s.cloudfrontIpSet - {oldest.hostIp}) + {ip}
  {
    ScanAfterDelete(s.table, acl, oldest.createdAt, ip);
  }

  /** The scan runs after the delete, but the deleted item is not newer than
      itself, so the scan sees the same newer records either way. */
  lemma ScanAfterDelete(t: seq<Record>, acl: AclId, since: int, ip: Ip)
    ensures |ScanNewer(DeleteDdbRule(t, acl, since), since, ip)| > 0
      <==> exists r :: r in t && r.createdAt > since && r.hostIp == ip
  {
    var scanned := ScanNewer(DeleteDdbRule(t, acl, since), since, ip);
    if |scanned| > 0 {
      assert scanned[0] in scanned;
    }
    if exists r :: r in t && r.createdAt > since && r.hostIp == ip {
      var r :| r in t && r.createdAt > since && r.hostIp == ip;
      assert r in scanned;
    }
  }

  // ---------------------------------------------------------------------
  // Repetition and growth of the table
  // ---------------------------------------------------------------------

  /** A successful invocation adds one record, stamped `now`, and otherwise
      only removes records. */
  lemma UpdateTableGrowth(s: State, acl: AclId, ip: Ip, region: string, now: int)
    requires Fresh(s.table, now)
    ensures var o := UpdateNacl(s, acl, ip, region, now);
      forall r :: r in After(s, o).table ==> r in s.table || r.createdAt == now
    ensures After(s, UpdateNacl(s, acl, ip, region, now)).nacls.Keys == s.nacls.Keys
  {
    var o := UpdateNacl(s, acl, ip, region, now);
    if o.Inserted? {
      InstallTableGrowth(s, acl, ip, region, now, o.ruleNo);
    } else if o.Rotated? {
      RotatedTableGrowth(s, acl, ip, region, now);
    }
  }

  lemma RotatedTableGrowth(s: State, acl: AclId, ip: Ip, region: string, now: int)
    requires Fresh(s.table, now)
    requires UpdateNacl(s, acl, ip, region, now).Rotated?
    ensures var o := UpdateNacl(s, acl, ip, region, now);
      && (forall r :: r in o.post.table ==> r in s.table || r.createdAt == now)
      && o.post.nacls.Keys == s.nacls.Keys
  {
    var o := UpdateNacl(s, acl, ip, region, now);
    EvictTableGrowth(s, acl, o.evicted, ip);
    InstallTableGrowth(Evict(s, acl, o.evicted, ip), acl, ip, region, now, o.ruleNo);
  }

  lemma InstallTableGrowth(s: State, acl: AclId, ip: Ip, region: string, now: int, n: int)
    requires acl in s.nacls
    ensures forall r :: r in Install(s, acl, ip, region, now, n).table ==> r in s.table || r.createdAt == now
    ensures Install(s, acl, ip, region, now, n).nacls.Keys == s.nacls.Keys
  {
  }

  /** Invoking the function again for the host it has just blocked, at any
      later time and from any region, does nothing. */
  lemma RepeatIsNoOp(s: State, acl: AclId, ip: Ip, region: string, now: int, region': string, now': int)
    requires Fresh(s.table, now) && now < now'
    requires UpdateNacl(s, acl, ip, region, now).Inserted? || UpdateNacl(s, acl, ip, region, now).Rotated?
    ensures Fresh(After(s, UpdateNacl(s, acl, ip, region, now)).table, now')
    ensures UpdateNacl(After(s, UpdateNacl(s, acl, ip, region, now)), acl, ip, region', now') == NoOp
  {
    var post := After(s, UpdateNacl(s, acl, ip, region, now));
    UpdateTableGrowth(s, acl, ip, region, now);
    SuccessInstallsBlock(s, acl, ip, region, now);
    assert HostRecorded(post.table, acl, ip);
  }

  // ---------------------------------------------------------------------
  // Two blocks in the same second
  // ---------------------------------------------------------------------

  /** `CreatedAt` is `int(time.time())`: whole seconds. Two installations on
      one network ACL stamped with the same second write the same key, so
      the second `put_item` replaces the first item. The first host's deny
      entry stays in the network ACL with no record for it, and the two
      rule-number lists no longer agree: every later invocation for that
      network ACL halts at the sync gate. `Fresh` is what rules this out
      for `UpdateNacl`. */
  lemma SameSecondLosesRecord(s: State, acl: AclId, ip1: Ip, ip2: Ip, region: string,
                              now: int, n1: int, n2: int)
    requires acl in s.nacls
    requires InReserved(n1) && n1 != n2 && n1 !in DdbRuleNumbers(s.table, acl)
    ensures var s2 := Install(Install(s, acl, ip1, region, now, n1), acl, ip2, region, now, n2);
      && DenyEntry(ip1, n1) in s2.nacls[acl]
      && n1 in GetNaclRules(s2.nacls[acl])
      && n1 !in DdbRuleNumbers(s2.table, acl)
      && !Synced(s2, acl)
  {
    var s2 := Install(Install(s, acl, ip1, region, now, n1), acl, ip2, region, now, n2);
    var es := s2.nacls[acl];
    var k :| 0 <= k < |es| && es[k] == DenyEntry(ip1, n1);
    assert n1 in GetNaclRules(es);
    SameSecondTable(s, acl, ip1, ip2, region, now, n1, n2);
    RuleNumbersFrom(s.table, s2.table, acl, n1, n2);
    assert n1 in multiset(GetNaclRules(es));
    assert n1 !in multiset(DdbRuleNumbers(s2.table, acl));
  }

  /** The second put_item with the same key replaces the first item. */
  lemma SameSecondTable(s: State, acl: AclId, ip1: Ip, ip2: Ip, region: string,
                        now: int, n1: int, n2: int)
    requires acl in s.nacls
    ensures var t := Install(Install(s, acl, ip1, region, now, n1), acl, ip2, region, now, n2).table;
      forall x :: x in t ==> x in s.table || x == Record(acl, now, ip2, n2, region)
  {
    var s1 := Install(s, acl, ip1, region, now, n1);
    assert Install(s1, acl, ip2, region, now, n2).table == CreateDdbRule(s1.table, acl, ip2, n2, region, now);
  }

  /** A table whose records are old ones or carry `n2` holds no record of
      `acl` numbered `n1` unless the old table did. */
  lemma RuleNumbersFrom(t: seq<Record>, t': seq<Record>, acl: AclId, n1: int, n2: int)
    requires forall x :: x in t' ==> x in t || x.ruleNo == n2
    requires n1 != n2 && n1 !in DdbRuleNumbers(t, acl)
    ensures n1 !in DdbRuleNumbers(t', acl)
  {
    forall i | 0 <= i < |DdbRuleNumbers(t', acl)| ensures DdbRuleNumbers(t', acl)[i] != n1 {
      var r := Query(t', acl)[i];
      assert r in Query(t', acl);
      if r in t {
        assert r in Query(t, acl);
        var j :| 0 <= j < |Query(t, acl)| && Query(t, acl)[j] == r;
        assert DdbRuleNumbers(t, acl)[j] == r.ruleNo;
      }
    }
  }
}

=== FILE: invariant.dfy ===
/**
  The invariant the rotation keeps across invocations: the state table is
  in timestamp order (every item written later has a later CreatedAt), and
  for every network ACL the records and the live reserved rules agree, no
  egress entry sits in the reserved range, and no two records share a slot.
  From it follow the bounds the rotation keeps: at most Capacity records per
  network ACL, all rule numbers within 71..80.
*/
module Invariant {
  import opened Seqs
  import opened ReservedRange
  import opened Stores
  import opened Rotation

  predicate Chronological(t: seq<Record>)
  {
    forall i, j :: 0 <= i < j < |t| ==> t[i].createdAt < t[j].createdAt
  }

  /** The per-ACL part of the invariant. */
  predicate AclConsistent(s: State, acl: AclId)
    requires acl in s.nacls
  {
    && EgressFree(s.nacls[acl])
    && Distinct(DdbRuleNumbers(s.table, acl))
    && Synced(s, acl)
  }

  predicate Valid(s: State)
  {
    && Chronological(s.table)
    && forall acl :: acl in s.nacls ==> AclConsistent(s, acl)
  }

  /** Slot exclusivity, the 71..80 range and the capacity bound all hold in
      a valid state, and the table's slots are exactly the live ones. */
  lemma ValidBounds(s: State, acl: AclId)
    requires Valid(s) && acl in s.nacls
    ensures Distinct(DdbRuleNumbers(s.table, acl))
    ensures forall r :: r in Query(s.table, acl) ==> InReserved(r.ruleNo)
    ensures forall x :: x in DdbRuleNumbers(s.table, acl) <==> x in GetNaclRules(s.nacls[acl])
    ensures |Query(s.table, acl)| <= Capacity
  {
    var ddb := DdbRuleNumbers(s.table, acl);
    var live := GetNaclRules(s.nacls[acl]);
    assert forall x :: x in ddb <==> x in multiset(live);
    forall r | r in Query(s.table, acl) ensures InReserved(r.ruleNo) {
      var i :| 0 <= i < |Query(s.table, acl)| && Query(s.table, acl)[i] == r;
      assert ddb[i] == r.ruleNo;
    }
    DistinctSlotsWithinCapacity(ddb);
  }

  /** A state with an empty table whose network ACLs hold no reserved
      entries is valid. */
  lemma EmptyTableValid(nacls: map<AclId, seq<NaclEntry>>, alb: set<Ip>, cloudfront: set<Ip>)
    requires forall acl, e :: acl in nacls && e in nacls[acl] ==> !InReserved(e.ruleNo)
    ensures Valid(State([], nacls, alb, cloudfront))
  {
    var s := State([], nacls, alb, cloudfront);
    forall acl | acl in nacls ensures AclConsistent(s, acl) {
      NoReservedEntries(nacls[acl]);
    }
  }

  lemma NoReservedEntries(es: seq<NaclEntry>)
    requires forall e :: e in es ==> !InReserved(e.ruleNo)
    ensures GetNaclRules(es) == []
  {
    assert forall i :: 0 <= i < |es| ==> es[i] in es && RuleNumbers(es)[i] == es[i].ruleNo;
    assert forall x :: x in RuleNumbers(es) ==> !InReserved(x);
    forall x ensures multiset(GetNaclRules(es))[x] == 0 {
      if InReserved(x) {
        assert x !in multiset(RuleNumbers(es));
      }
    }
    assert multiset(GetNaclRules(es)) == multiset{};
  }

  /** An ACL whose entries and records an operation leaves alone stays
      consistent. */
  lemma UntouchedAclConsistent(s: State, s': State, acl: AclId)
    requires acl in s.nacls && AclConsistent(s, acl)
    requires acl in s'.nacls && s'.nacls[acl] == s.nacls[acl]
    requires Query(s'.table, acl) == Query(s.table, acl)
    ensures AclConsistent(s', acl)
  {
  }

  // ---------------------------------------------------------------------
  // How the table operations act on one ACL's query
  // ---------------------------------------------------------------------

  lemma QueryAppend(t: seq<Record>, r: Record, acl: AclId)
    ensures Query(t + [r], acl) == Query(t, acl) + (if r.aclId == acl then [r] else [])
  {
    FilterAppend(AclIs(acl), t, [r]);
    FilterCons(AclIs(acl), [r]);
  }

  lemma QueryAfterDelete(t: seq<Record>, acl: AclId, createdAt: int, other: AclId)
    ensures Query(DeleteDdbRule(t, acl, createdAt), other) == Filter(KeyIsNot(acl, createdAt), Query(t, other))
    ensures other != acl ==> Query(DeleteDdbRule(t, acl, createdAt), other) == Query(t, other)
  {
    FilterCommutes(AclIs(other), KeyIsNot(acl, createdAt), t);
    if other != acl {
      FilterKeepsAll(KeyIsNot(acl, createdAt), Query(t, other));
    }
  }

  lemma ChronologicalFilter(p: Record -> bool, t: seq<Record>)
    requires Chronological(t)
    ensures Chronological(Filter(p, t))
  {
    FilterPairwise((a: Record, b: Record) => a.createdAt < b.createdAt, p, t);
  }

  /** In timestamp order, the key of the oldest record of an ACL picks out
      that record and no other. */
  lemma OldestKeyIsUnique(q: seq<Record>, k: int)
    requires Chronological(q) && 0 <= k < |q|
    ensures forall i :: 0 <= i < |q| ==> (q[i].createdAt == q[k].createdAt <==> i == k)
  {
    forall i | 0 <= i < |q| && i != k ensures q[i].createdAt != q[k].createdAt {
      if i < k {
        assert q[i].createdAt < q[k].createdAt;
      } else {
        assert q[k].createdAt < q[i].createdAt;
      }
    }
  }

  // ---------------------------------------------------------------------
  // Installation and eviction keep the invariant
  // ---------------------------------------------------------------------

  /** A change confined to one ACL — its entries and its records — that
      leaves the table in timestamp order and that ACL consistent keeps a
      valid state valid. */
  lemma LocalChangeKeepsValid(s: State, s': State, acl: AclId)
    requires Valid(s) && acl in s.nacls
    requires Chronological(s'.table) && s'.nacls.Keys == s.nacls.Keys
    requires forall other :: other in s.nacls && other != acl ==>
      s'.nacls[other] == s.nacls[other] && Query(s'.table, other) == Query(s.table, other)
    requires AclConsistent(s', acl)
    ensures Valid(s')
  {
    forall other | other in s'.nacls ensures AclConsistent(s', other) {
      if other != acl {
        assert AclConsistent(s, other);
        UntouchedAclConsistent(s, s', other);
      }
    }
  }

  /** Taking a free slot keeps the two rule-number lists equal as multisets
      and the table's list duplicate-free. */
  lemma TakeSlot(ddb: seq<int>, live: seq<int>, n: int)
    requires Distinct(ddb) && multiset(ddb) == multiset(live) && n !in live
    ensures Distinct(ddb + [n])
    ensures multiset(ddb + [n]) == multiset(live + [n])
  {
    assert n !in multiset(ddb);
  }

  /** Freeing a slot keeps the two rule-number lists equal as multisets and
      the table's list duplicate-free. */
  lemma FreeSlot(ddb: seq<int>, live: seq<int>, n: int)
    requires Distinct(ddb) && multiset(ddb) == multiset(live)
    ensures Distinct(Filter(IsNot(n), ddb))
    ensures multiset(Filter(IsNot(n), ddb)) == multiset(Filter(IsNot(n), live))
  {
    FilterDistinct(IsNot(n), ddb);
    FilterMultiset(IsNot(n), ddb);
    FilterMultiset(IsNot(n), live);
  }

  /** Appending a record stamped later than every other one: the table
      stays in timestamp order, its ACL gains the record, and no other ACL
      sees a change. */
  lemma AppendRecord(t: seq<Record>, rec: Record)
    requires Chronological(t) && Fresh(t, rec.createdAt)
    ensures Chronological(t + [rec])
    ensures Query(t + [rec], rec.aclId) == Query(t, rec.aclId) + [rec]
    ensures DdbRuleNumbers(t + [rec], rec.aclId) == DdbRuleNumbers(t, rec.aclId) + [rec.ruleNo]
    ensures forall other :: other != rec.aclId ==> Query(t + [rec], other) == Query(t, other)
  {
    QueryAppend(t, rec, rec.aclId);
    MapAppend(RecordRuleNo, Query(t, rec.aclId), [rec]);
    forall other | other != rec.aclId ensures Query(t + [rec], other) == Query(t, other) {
      QueryAppend(t, rec, other);
    }
  }

  /** Deleting by key in one ACL: the table stays in timestamp order and no
      other ACL sees a change. */
  lemma DeleteRecord(t: seq<Record>, acl: AclId, createdAt: int)
    requires Chronological(t)
    ensures Chronological(DeleteDdbRule(t, acl, createdAt))
    ensures forall other :: other != acl ==> Query(DeleteDdbRule(t, acl, createdAt), other) == Query(t, other)
  {
    ChronologicalFilter(KeyIsNot(acl, createdAt), t);
    forall other | other != acl ensures Query(DeleteDdbRule(t, acl, createdAt), other) == Query(t, other) {
      QueryAfterDelete(t, acl, createdAt, other);
    }
  }

  /** What Install does to the table and to the ACL's live rules. */
  lemma InstallShape(s: State, acl: AclId, ip: Ip, region: string, now: int, n: int)
    requires Fresh(s.table, now) && acl in s.nacls && InReserved(n)
    ensures var s' := Install(s, acl, ip, region, now, n);
      && s'.table == s.table + [Record(acl, now, ip, n, region)]
      && s'.nacls.Keys == s.nacls.Keys
      && (forall other :: other in s.nacls && other != acl ==> s'.nacls[other] == s.nacls[other])
      && GetNaclRules(s'.nacls[acl]) == GetNaclRules(s.nacls[acl]) + [n]
      && EgressFree(s'.nacls[acl]) == EgressFree(s.nacls[acl])
  {
    CreateFresh(s.table, acl, ip, n, region, now);
    CreateTakesSlot(s.nacls[acl], ip, n);
  }

  /** Installing the block at a reserved slot that is not live keeps a valid
      state valid. */
  lemma InstallKeepsValid(s: State, acl: AclId, ip: Ip, region: string, now: int, n: int)
    requires Valid(s) && Fresh(s.table, now) && acl in s.nacls
    requires InReserved(n) && n !in GetNaclRules(s.nacls[acl])
    ensures Valid(Install(s, acl, ip, region, now, n))
    ensures DdbRuleNumbers(Install(s, acl, ip, region, now, n).table, acl) == DdbRuleNumbers(s.table, acl) + [n]
    ensures GetNaclRules(Install(s, acl, ip, region, now, n).nacls[acl]) == GetNaclRules(s.nacls[acl]) + [n]
  {
    var s' := Install(s, acl, ip, region, now, n);
    InstallShape(s, acl, ip, region, now, n);
    AppendRecord(s.table, Record(acl, now, ip, n, region));
    assert AclConsistent(s, acl);
    TakeSlot(DdbRuleNumbers(s.table, acl), GetNaclRules(s.nacls[acl]), n);
    assert AclConsistent(s', acl);
    LocalChangeKeepsValid(s, s', acl);
  }

  /** What Evict does to the table and to the ACL's live rules. */
  lemma EvictShape(s: State, acl: AclId, oldest: Record, ip: Ip)
    requires acl in s.nacls
    ensures var s' := Evict(s, acl, oldest, ip);
      && s'.table == DeleteDdbRule(s.table, acl, oldest.createdAt)
      && s'.nacls == s.nacls[acl := DeleteNetaclRule(s.nacls[acl], oldest.ruleNo)]
  {
  }

  /** Evicting a record of the ACL keeps a valid state valid. */
  lemma EvictKeepsValid(s: State, acl: AclId, k: int, ip: Ip)
    requires Valid(s) && acl in s.nacls
    requires 0 <= k < |Query(s.table, acl)|
    ensures Valid(Evict(s, acl, Query(s.table, acl)[k], ip))
  {
    var oldest := Query(s.table, acl)[k];
    EvictShape(s, acl, oldest, ip);
    DeleteRecord(s.table, acl, oldest.createdAt);
    assert AclConsistent(s, acl);
    EvictTargetConsistent(s, acl, k, ip);
    ReplaceAcl(s, Evict(s, acl, oldest, ip), acl,
               DeleteDdbRule(s.table, acl, oldest.createdAt), DeleteNetaclRule(s.nacls[acl], oldest.ruleNo));
  }

  /** LocalChangeKeepsValid for a state given by its new table and the new
      entries of the one ACL that changed. */
  lemma ReplaceAcl(s: State, s': State, acl: AclId, t': seq<Record>, es': seq<NaclEntry>)
    requires Valid(s) && acl in s.nacls
    requires s'.table == t' && s'.nacls == s.nacls[acl := es']
    requires Chronological(t')
    requires forall other :: other != acl ==> Query(t', other) == Query(s.table, other)
    requires AclConsistent(s', acl)
    ensures Valid(s')
  {
    ReplaceAclFrame(s, s', acl, t', es');
    LocalChangeKeepsValid(s, s', acl);
  }

  /** Replacing one ACL's entries leaves the other ACLs as they were. */
  lemma ReplaceAclFrame(s: State, s': State, acl: AclId, t': seq<Record>, es': seq<NaclEntry>)
    requires acl in s.nacls
    requires s'.table == t' && s'.nacls == s.nacls[acl := es']
    requires forall other :: other != acl ==> Query(t', other) == Query(s.table, other)
    ensures s'.nacls.Keys == s.nacls.Keys
    ensures forall other :: other in s.nacls && other != acl ==>
      s'.nacls[other] == s.nacls[other] && Query(s'.table, other) == Query(s.table, other)
  {
  }

  lemma EvictTableGrowth(s: State, acl: AclId, oldest: Record, ip: Ip)
    requires acl in s.nacls
    ensures forall r :: r in Evict(s, acl, oldest, ip).table ==> r in s.table
    ensures Evict(s, acl, oldest, ip).nacls.Keys == s.nacls.Keys
  {
    EvictShape(s, acl, oldest, ip);
  }

  lemma EvictTargetConsistent(s: State, acl: AclId, k: int, ip: Ip)
    requires Chronological(s.table) && acl in s.nacls && AclConsistent(s, acl)
    requires 0 <= k < |Query(s.table, acl)|
    ensures var s' := Evict(s, acl, Query(s.table, acl)[k], ip);
      && AclConsistent(s', acl)
      && DdbRuleNumbers(s'.table, acl) == Filter(IsNot(Query(s.table, acl)[k].ruleNo), DdbRuleNumbers(s.table, acl))
      && GetNaclRules(s'.nacls[acl]) == Filter(IsNot(Query(s.table, acl)[k].ruleNo), GetNaclRules(s.nacls[acl]))
  {
    var oldest := Query(s.table, acl)[k];
    var n := oldest.ruleNo;
    EvictShape(s, acl, oldest, ip);
    var ddb := DdbRuleNumbers(s.table, acl);
    var live := GetNaclRules(s.nacls[acl]);
    EvictTableSide(s.table, acl, k);
    assert n in multiset(live) by {
      assert ddb[k] == n;
    }
    DeleteFreesSlot(s.nacls[acl], n);
    FreeSlot(ddb, live, n);
  }

  /** Deleting the item of the ACL's k-th record removes exactly that
      record's rule number from the ACL's rule numbers. */
  lemma EvictTableSide(t: seq<Record>, acl: AclId, k: int)
    requires Chronological(t) && Distinct(DdbRuleNumbers(t, acl))
    requires 0 <= k < |Query(t, acl)|
    ensures DdbRuleNumbers(DeleteDdbRule(t, acl, Query(t, acl)[k].createdAt), acl)
      == Filter(IsNot(Query(t, acl)[k].ruleNo), DdbRuleNumbers(t, acl))
  {
    var q := Query(t, acl);
    var oldest := q[k];
    QueryAfterDelete(t, acl, oldest.createdAt, acl);
    ChronologicalFilter(AclIs(acl), t);
    OldestKeyIsUnique(q, k);
    KeyMatchesSlot(q, DdbRuleNumbers(t, acl), acl, k);
    MapFilter(RecordRuleNo, KeyIsNot(acl, oldest.createdAt), IsNot(oldest.ruleNo), q);
  }

  /** Within one ACL's records, the oldest record's key and its slot pick
      out the same record. */
  lemma KeyMatchesSlot(q: seq<Record>, ddb: seq<int>, acl: AclId, k: int)
    requires 0 <= k < |q| && |ddb| == |q|
    requires forall i :: 0 <= i < |q| ==> ddb[i] == q[i].ruleNo && q[i].aclId == acl
    requires Distinct(ddb)
    requires forall i :: 0 <= i < |q| ==> (q[i].createdAt == q[k].createdAt <==> i == k)
    ensures forall r :: r in q ==> KeyIsNot(acl, q[k].createdAt)(r) == IsNot(q[k].ruleNo)(RecordRuleNo(r))
  {
    forall r | r in q ensures KeyIsNot(acl, q[k].createdAt)(r) == IsNot(q[k].ruleNo)(RecordRuleNo(r)) {
      var i :| 0 <= i < |q| && q[i] == r;
      assert ddb[i] == r.ruleNo;
    }
  }

  /** Every invocation keeps a valid state valid. */
  lemma UpdateKeepsValid(s: State, acl: AclId, ip: Ip, region: string, now: int)
    requires Valid(s) && Fresh(s.table, now)
    ensures Valid(After(s, UpdateNacl(s, acl, ip, region, now)))
  {
    var o := UpdateNacl(s, acl, ip, region, now);
    if o.Inserted? {
      InsertedKeepsValid(s, acl, ip, region, now);
    } else if o.Rotated? {
      RotatedFacts(s, acl, ip, region, now);
    }
  }

  /** An insertion takes a reserved slot that is not live, so it keeps a
      valid state valid. */
  lemma InsertedKeepsValid(s: State, acl: AclId, ip: Ip, region: string, now: int)
    requires Valid(s) && Fresh(s.table, now)
    requires UpdateNacl(s, acl, ip, region, now).Inserted?
    ensures Valid(UpdateNacl(s, acl, ip, region, now).post)
  {
    var o := UpdateNacl(s, acl, ip, region, now);
    InstallKeepsValid(s, acl, ip, region, now, o.ruleNo);
  }

  /** A rotation in a valid state evicts one record of the ACL and keeps the
      state valid. */
  lemma RotatedFacts(s: State, acl: AclId, ip: Ip, region: string, now: int)
    requires Valid(s) && Fresh(s.table, now)
    requires UpdateNacl(s, acl, ip, region, now).Rotated?
    ensures var o := UpdateNacl(s, acl, ip, region, now);
      && acl in s.nacls
      && Valid(o.post)
      && o.evicted == Query(s.table, acl)[OldestIndex(Query(s.table, acl))]
      && o.ruleNo == o.evicted.ruleNo
      && DdbRuleNumbers(o.post.table, acl) == Filter(IsNot(o.ruleNo), DdbRuleNumbers(s.table, acl)) + [o.ruleNo]
      && GetNaclRules(o.post.nacls[acl]) == Filter(IsNot(o.ruleNo), GetNaclRules(s.nacls[acl])) + [o.ruleNo]
  {
    var q := Query(s.table, acl);
    var k := OldestIndex(q);
    var oldest := q[k];
    var n := oldest.ruleNo;
    var s1 := Evict(s, acl, oldest, ip);
    EvictKeepsValid(s, acl, k, ip);
    assert AclConsistent(s, acl);
    EvictTargetConsistent(s, acl, k, ip);
    EvictTableGrowth(s, acl, oldest, ip);
    assert n !in Filter(IsNot(n), GetNaclRules(s.nacls[acl]));
    assert Fresh(s1.table, now);
    assert DdbRuleNumbers(s.table, acl)[k] == n;
    ValidBounds(s, acl);
    InstallKeepsValid(s1, acl, ip, region, now, n);
  }
}

=== FILE: reserved.dfy ===
/**
  The reserved range of network ACL rule numbers the rotation owns, 71 to 80
  inclusive, and the choice of the lowest free slot in it.
*/
module ReservedRange {
  import opened Seqs

  const RangeLo: int := 71
  const RangeHi: int := 80
  /** The number of records a network ACL may hold; the source writes the
      literal 10, the size of the range. */
  const Capacity: int := 10

  datatype Option<T> = None | Some(value: T)

  predicate InReserved(x: int)
  {
    RangeLo <= x <= RangeHi
  }

  /** The first number from `k` to RangeHi that `used` does not contain. */
  function LowestFreeFrom(used: seq<int>, k: int): (r: Option<int>)
    requires RangeLo <= k <= RangeHi + 1
    ensures r.Some? ==> k <= r.value <= RangeHi && r.value !in used
    ensures r.Some? ==> forall m :: k <= m < r.value ==> m in used
    ensures r.None? <==> forall m :: k <= m <= RangeHi ==> m in used
    decreases RangeHi + 1 - k
  {
    if k > RangeHi then None
    else if k !in used then Some(k)
    else LowestFreeFrom(used, k + 1)
  }

  /** `min([x for x in range(71, 81) if not x in used])`, with None where
      Python's `min` would raise on an empty list. */
  function LowestFree(used: seq<int>): (r: Option<int>)
    ensures r.Some? ==> InReserved(r.value) && r.value !in used
    ensures r.Some? ==> forall m :: RangeLo <= m < r.value ==> m in used
    ensures r.None? <==> forall m :: InReserved(m) ==> m in used
  {
    LowestFreeFrom(used, RangeLo)
  }

  /** The numbers from `lo` to `hi` inclusive. */
  function Slots(lo: int, hi: int): (r: set<int>)
    requires lo <= hi + 1
    ensures forall x :: x in r <==> lo <= x <= hi
    ensures |r| == hi - lo + 1
    decreases hi - lo
  {
    if lo > hi then {} else Slots(lo, hi - 1) + {hi}
  }

  lemma {:induction false} ElementsCard(s: seq<int>)
    ensures |set x | x in s| <= |s|
    ensures Distinct(s) ==> |set x | x in s| == |s|
  {
    if |s| > 0 {
      ElementsCard(s[1..]);
      assert (set x | x in s) == (set x | x in s[1..]) + {s[0]};
      if Distinct(s) {
        assert Distinct(s[1..]);
        assert s[0] !in s[1..];
      }
    }
  }

  lemma SubsetCard(a: set<int>, b: set<int>)
    requires a <= b
    ensures |a| <= |b|
  {
    assert b == a + (b - a);
  }

  /** A list that contains every reserved number has at least Capacity
      elements. */
  lemma FullRangeNeedsCapacity(used: seq<int>)
    requires forall m :: InReserved(m) ==> m in used
    ensures |used| >= Capacity
  {
    ElementsCard(used);
    var e := set x | x in used;
    SubsetCard(Slots(RangeLo, RangeHi), e);
  }

  /** Slot exclusivity bounds the occupancy: duplicate-free reserved
      numbers number at most Capacity. */
  lemma DistinctSlotsWithinCapacity(s: seq<int>)
    requires Distinct(s)
    requires forall x :: x in s ==> InReserved(x)
    ensures |s| <= Capacity
  {
    ElementsCard(s);
    var e := set x | x in s;
    var slots := Slots(RangeLo, RangeHi);
    forall x | x in e ensures x in slots {
      assert InReserved(x);
    }
    SubsetCard(e, slots);
  }

  /** Fewer than Capacity used numbers always leave a free slot, so the
      `min` of the has-space branch never sees an empty list. */
  lemma FreeSlotExists(used: seq<int>)
    requires |used| < Capacity
    ensures LowestFree(used).Some?
  {
    if LowestFree(used).None? {
      FullRangeNeedsCapacity(used);
    }
  }
}

=== FILE: rotation.dfy ===
/**
  update_nacl: one invocation of the rotation for a network ACL, a host IP
  and a region. It checks for a duplicate, checks that the state table and
  the live reserved rules agree, picks a slot (71 on an empty table, the
  lowest free one while there is space, the oldest record's when full),
  evicts the oldest record when full, and installs the new block in the
  network ACL, the state table and both WAF IP sets.
*/
module Rotation {
  import opened Sorting
  import opened ReservedRange
  import opened Stores

  /** Why an invocation stopped before mutating anything. */
  datatype HaltReason =
    | NaclNotFound      // describe_network_acls raises for an unknown ACL
    | SyncMismatch      // the sorted rule lists differ: exit()
    | PreexistingRules  // no records but reserved rules exist: exit()

  datatype Outcome =
    | NoOp
    | Halt(reason: HaltReason)
    | Inserted(post: State, ruleNo: int)
    | Rotated(post: State, ruleNo: int, evicted: Record)

  /** The stores once the invocation is over. */
  function After(s: State, o: Outcome): State
  {
    match o
    case Inserted(post, _) => post
    case Rotated(post, _, _) => post
    case _ => s
  }

  /** Some record of network ACL `acl` blocks `ip`. */
  predicate HostRecorded(t: seq<Record>, acl: AclId, ip: Ip)
  {
    exists r :: r in t && r.aclId == acl && r.hostIp == ip
  }

  /** The state table's rule numbers for `acl` and the live reserved rule
      numbers are the same numbers with the same multiplicities. */
  predicate Synced(s: State, acl: AclId)
    requires acl in s.nacls
  {
    multiset(DdbRuleNumbers(s.table, acl)) == multiset(GetNaclRules(s.nacls[acl]))
  }

  /** The first item of an ascending query with Limit=1: the record with
      the smallest CreatedAt. */
  function OldestIndex(rs: seq<Record>): (i: nat)
    requires |rs| > 0
    ensures i < |rs|
    ensures forall j :: 0 <= j < |rs| ==> rs[i].createdAt <= rs[j].createdAt
  {
    if |rs| == 1 then 0
    else
      var k := 1 + OldestIndex(rs[1..]);
      if rs[0].createdAt <= rs[k].createdAt then 0 else k
  }

  /** Eviction of the oldest record: delete its network ACL rule, delete its
      state-table item, then remove its host from both WAF IP sets unless
      the scan finds a record newer than it whose HostIp is `ip`, the host
      being blocked now. */
  function Evict(s: State, acl: AclId, oldest: Record, ip: Ip): (r: State)
    requires acl in s.nacls
    ensures r.nacls.Keys == s.nacls.Keys
    ensures forall x :: x in r.table <==> x in s.table && !(x.aclId == acl && x.createdAt == oldest.createdAt)
    ensures oldest.aclId == acl ==> oldest !in r.table
    ensures forall e :: e in r.nacls[acl] <==> e in s.nacls[acl] && (e.egress || e.ruleNo != oldest.ruleNo)
    ensures forall a :: a in s.nacls && a != acl ==> r.nacls[a] == s.nacls[a]
    ensures r.albIpSet <= s.albIpSet && s.albIpSet - r.albIpSet <= {oldest.hostIp}
    ensures r.cloudfrontIpSet <= s.cloudfrontIpSet && s.cloudfrontIpSet - r.cloudfrontIpSet <= {oldest.hostIp}
  {
    var nacls := s.nacls[acl := DeleteNetaclRule(s.nacls[acl], oldest.ruleNo)];
    var table := DeleteDdbRule(s.table, acl, oldest.createdAt);
    if |ScanNewer(table, oldest.createdAt, ip)| == 0 then
      State(table, nacls,
            WafUpdateIpSet(s.albIpSet, Delete, oldest.hostIp),
            WafUpdateIpSet(s.cloudfrontIpSet, Delete, oldest.hostIp))
    else
      State(table, nacls, s.albIpSet, s.cloudfrontIpSet)
  }

  /** Installation of the block at rule number `n`: the network ACL rule,
      the state-table item stamped `now`, and INSERT into both WAF IP sets. */
  function Install(s: State, acl: AclId, ip: Ip, region: string, now: int, n: int): (r: State)
    requires acl in s.nacls
    ensures r.nacls.Keys == s.nacls.Keys
    ensures Record(acl, now, ip, n, region) in r.table
    ensures forall x :: x in r.table ==> x in s.table || x == Record(acl, now, ip, n, region)
    ensures forall x :: x in s.table && !(x.aclId == acl && x.createdAt == now) ==> x in r.table
    ensures DenyEntry(ip, n) in r.nacls[acl]
    ensures forall a :: a in s.nacls && a != acl ==> r.nacls[a] == s.nacls[a]
    ensures ip in r.albIpSet && ip in r.cloudfrontIpSet
  {
    State(CreateDdbRule(s.table, acl, ip, n, region, now),
          s.nacls[acl := CreateNetaclRule(s.nacls[acl], ip, n)],
          WafUpdateIpSet(s.albIpSet, Insert, ip),
          WafUpdateIpSet(s.cloudfrontIpSet, Insert, ip))
  }

  /** update_nacl(netacl_id, host_ip, region), with the clock reading `now`
      passed in: nothing happens when the host is already recorded for this
      network ACL. */
  function UpdateNacl(s: State, acl: AclId, ip: Ip, region: string, now: int): (o: Outcome)
    requires Fresh(s.table, now)
    ensures o.NoOp? <==> HostRecorded(s.table, acl, ip)
    ensures !o.NoOp? ==> o == Reconcile(s, acl, ip, region, now)
  {
    var duplicates := QueryHost(s.table, acl, ip);
    assert |duplicates| > 0 <==> HostRecorded(s.table, acl, ip) by {
      if |duplicates| > 0 {
        assert duplicates[0] in duplicates;
      }
    }
    if |duplicates| > 0 then NoOp else Reconcile(s, acl, ip, region, now)
  }

  /** The branch of update_nacl after the duplicate check: the sync gate,
      the choice of slot, eviction and installation. */
  function Reconcile(s: State, acl: AclId, ip: Ip, region: string, now: int): (o: Outcome)
    requires Fresh(s.table, now)
    ensures !o.NoOp?
    ensures o == Halt(NaclNotFound) <==> acl !in s.nacls
    ensures o == Halt(SyncMismatch) <==>
      acl in s.nacls && |Query(s.table, acl)| > 0 && !Synced(s, acl)
    ensures o == Halt(PreexistingRules) <==>
      acl in s.nacls && |Query(s.table, acl)| == 0 && |GetNaclRules(s.nacls[acl])| > 0
    ensures o.Rotated? <==>
      acl in s.nacls && |Query(s.table, acl)| >= Capacity && Synced(s, acl)
    ensures o.Inserted? <==>
      acl in s.nacls && |Query(s.table, acl)| < Capacity && Synced(s, acl)
    ensures o.Inserted? ==>
      && acl in s.nacls
      && InReserved(o.ruleNo)
      && o.ruleNo !in GetNaclRules(s.nacls[acl])
      && (forall m :: RangeLo <= m < o.ruleNo ==> m in GetNaclRules(s.nacls[acl]))
      && o.post == Install(s, acl, ip, region, now, o.ruleNo)
    ensures o.Rotated? ==>
      && acl in s.nacls
      && o.evicted in Query(s.table, acl)
      && (forall r :: r in Query(s.table, acl) ==> o.evicted.createdAt <= r.createdAt)
      && o.ruleNo == o.evicted.ruleNo
      && o.post == Install(Evict(s, acl, o.evicted, ip), acl, ip, region, now, o.ruleNo)
  {
    if acl !in s.nacls then Halt(NaclNotFound)
    else
      var entries := Query(s.table, acl);
      var live := GetNaclRules(s.nacls[acl]);
      var ddb := DdbRuleNumbers(s.table, acl);
      if |entries| > 0 then
        SortedAgreeIffPermutation(ddb, live);
        if !SameSorted(ddb, live) then Halt(SyncMismatch)
        else if |entries| < Capacity then
          assert |live| == |multiset(live)| == |multiset(ddb)| == |ddb|;
          InsertLowest(s, acl, ip, region, now)
        else RotateOldest(s, acl, ip, region, now)
      else if |live| > 0 then Halt(PreexistingRules)
      else Inserted(Install(s, acl, ip, region, now, RangeLo), RangeLo)
  }

  /** The has-space branch: the lowest reserved number that is not live. */
  function InsertLowest(s: State, acl: AclId, ip: Ip, region: string, now: int): (o: Outcome)
    requires acl in s.nacls && |GetNaclRules(s.nacls[acl])| < Capacity
    ensures o.Inserted?
    ensures InReserved(o.ruleNo) && o.ruleNo !in GetNaclRules(s.nacls[acl])
    ensures forall m :: RangeLo <= m < o.ruleNo ==> m in GetNaclRules(s.nacls[acl])
    ensures o.post == Install(s, acl, ip, region, now, o.ruleNo)
  {
    var live := GetNaclRules(s.nacls[acl]);
    FreeSlotExists(live);
    match LowestFree(live)
    case Some(n) => Inserted(Install(s, acl, ip, region, now, n), n)
  }

  /** The full branch: evict the oldest record and reuse its rule number. */
  function RotateOldest(s: State, acl: AclId, ip: Ip, region: string, now: int): (o: Outcome)
    requires acl in s.nacls && |Query(s.table, acl)| > 0
    ensures o.Rotated?
    ensures o.evicted in Query(s.table, acl)
    ensures forall r :: r in Query(s.table, acl) ==> o.evicted.createdAt <= r.createdAt
    ensures o.ruleNo == o.evicted.ruleNo
    ensures o.post == Install(Evict(s, acl, o.evicted, ip), acl, ip, region, now, o.ruleNo)
  {
    var entries := Query(s.table, acl);
    var oldest := entries[OldestIndex(entries)];
    Rotated(Install(Evict(s, acl, oldest, ip), acl, ip, region, now, oldest.ruleNo), oldest.ruleNo, oldest)
  }
}

=== FILE: runs.dfy ===
/**
  A run: the Lambda function invoked once per finding, in order, each
  invocation seeing the stores the previous one left. The capacity
  property is about runs: from an empty table, however many distinct hosts
  are reported, no network ACL ever holds more than Capacity records and
  every rule number the table holds is in 71..80.
*/
module Runs {
  import opened ReservedRange
  import opened Stores
  import opened Rotation
  import opened Invariant
  import opened RotationFacts

  /** One finding, as `lambda_handler` extracts it from the event, stamped
      with the time its invocation writes the state-table item. */
  datatype Finding = Finding(acl: AclId, ip: Ip, region: string, at: int)

  /** The clock readings of a run: each later than every record already in
      the table, and strictly increasing. */
  predicate Timely(t: seq<Record>, fs: seq<Finding>)
  {
    && (forall i :: 0 <= i < |fs| ==> Fresh(t, fs[i].at))
    && (forall i, j :: 0 <= i < j < |fs| ==> fs[i].at < fs[j].at)
  }

  /** The stores after handling every finding in turn. */
  function Run(s: State, fs: seq<Finding>): (r: State)
    requires Timely(s.table, fs)
    ensures r.nacls.Keys == s.nacls.Keys
    ensures Valid(s) ==> Valid(r)
    decreases |fs|
  {
    if |fs| == 0 then s
    else
      var f := fs[0];
      var s' := After(s, UpdateNacl(s, f.acl, f.ip, f.region, f.at));
      StepKeepsValid(s, f);
      StepKeepsTimely(s, fs);
      Run(s', fs[1..])
  }

  lemma StepKeepsValid(s: State, f: Finding)
    requires Fresh(s.table, f.at)
    ensures Valid(s) ==> Valid(After(s, UpdateNacl(s, f.acl, f.ip, f.region, f.at)))
  {
    if Valid(s) {
      UpdateKeepsValid(s, f.acl, f.ip, f.region, f.at);
    }
  }

  /** The later findings are still timely for the stores the first one
      leaves behind: it writes only records stamped with its own time. */
  lemma StepKeepsTimely(s: State, fs: seq<Finding>)
    requires |fs| > 0 && Timely(s.table, fs)
    ensures var f := fs[0];
      var s' := After(s, UpdateNacl(s, f.acl, f.ip, f.region, f.at));
      && Timely(s'.table, fs[1..])
      && s'.nacls.Keys == s.nacls.Keys
  {
    var f := fs[0];
    UpdateTableGrowth(s, f.acl, f.ip, f.region, f.at);
    var s' := After(s, UpdateNacl(s, f.acl, f.ip, f.region, f.at));
    forall i | 0 <= i < |fs[1..]| ensures Fresh(s'.table, fs[1..][i].at) {
      assert fs[1..][i] == fs[i + 1];
      assert Fresh(s.table, fs[i + 1].at);
      assert f.at < fs[i + 1].at;
    }
  }

  /** The capacity property: from a table with no records and network ACLs
      with no reserved entries, after any timely run every network ACL holds
      at most Capacity records, all at rule numbers in 71..80, and the
      table's rule numbers are exactly the live reserved rules. */
  lemma RunWithinCapacity(nacls: map<AclId, seq<NaclEntry>>, alb: set<Ip>, cloudfront: set<Ip>,
                          fs: seq<Finding>, acl: AclId)
    requires forall a, e :: a in nacls && e in nacls[a] ==> !InReserved(e.ruleNo)
    requires Timely([], fs)
    requires acl in nacls
    ensures var r := Run(State([], nacls, alb, cloudfront), fs);
      && acl in r.nacls
      && |Query(r.table, acl)| <= Capacity
      && (forall rec :: rec in Query(r.table, acl) ==> InReserved(rec.ruleNo))
      && (forall x :: x in DdbRuleNumbers(r.table, acl) <==> x in GetNaclRules(r.nacls[acl]))
  {
    var s := State([], nacls, alb, cloudfront);
    EmptyTableValid(nacls, alb, cloudfront);
    ValidBounds(Run(s, fs), acl);
  }

  /** Blocking 10.0.0.5 on a network ACL with no records and no reserved
      entries: one record at rule 71, one ingress deny entry for
      10.0.0.5/32 at 71, and the host in both WAF IP sets. */
  lemma FirstBlockScenario(now: int)
    ensures var s := State([], map["acl-1" := []], {}, {});
      UpdateNacl(s, "acl-1", "10.0.0.5", "us-east-1", now)
      == Inserted(State([Record("acl-1", now, "10.0.0.5", 71, "us-east-1")],
                        map["acl-1" := [NaclEntry(71, false, "10.0.0.5/32", "-1", 0, 65535, Deny)]],
                        {"10.0.0.5"}, {"10.0.0.5"}),
                  71)
  {
    var s := State([], map["acl-1" := []], {}, {});
    assert Query([], "acl-1") == [];
    assert GetNaclRules([]) == [];
    assert QueryHost([], "acl-1", "10.0.0.5") == [];
    CreateFresh([], "acl-1", "10.0.0.5", 71, "us-east-1", now);
    assert UpdateNacl(s, "acl-1", "10.0.0.5", "us-east-1", now)
      == Inserted(Install(s, "acl-1", "10.0.0.5", "us-east-1", now, 71), 71);
    assert DenyEntry("10.0.0.5", 71) == NaclEntry(71, false, "10.0.0.5/32", "-1", 0, 65535, Deny);
    assert CreateNetaclRule([], "10.0.0.5", 71) == [DenyEntry("10.0.0.5", 71)];
    assert s.nacls["acl-1" := [DenyEntry("10.0.0.5", 71)]] == map["acl-1" := [DenyEntry("10.0.0.5", 71)]];
    assert WafUpdateIpSet({}, Insert, "10.0.0.5") == {"10.0.0.5"};
  }
}

=== FILE: seqs.dfy ===
/**
  Sequence helpers for the list handling the Lambda function does with
  Python loops, list comprehensions and `filter`: keeping the elements that
  satisfy a predicate, mapping a field out of every element, and the facts
  about those two that the rotation proofs need.
*/
module Seqs {

  /** The elements of `s` that satisfy `p`, in their original order. */
  function Filter<T(==,!new)>(p: T -> bool, s: seq<T>): (r: seq<T>)
    ensures |r| <= |s|
    ensures forall x :: x in r <==> x in s && p(x)
  {
    if |s| == 0 then []
    else
      assert forall x :: x in s <==> x == s[0] || x in s[1..];
      (if p(s[0]) then [s[0]] else []) + Filter(p, s[1..])
  }

  /** Filtering keeps every element that satisfies `p` as often as it
      occurs, and drops every other element. */
  lemma {:induction false} FilterMultiset<T(!new)>(p: T -> bool, s: seq<T>)
    ensures forall x :: multiset(Filter(p, s))[x] == if p(x) then multiset(s)[x] else 0
  {
    if |s| > 0 {
      FilterMultiset(p, s[1..]);
      assert s == [s[0]] + s[1..];
    }
  }

  /** Unfolding `Filter` once: the verdict on the head, then the rest. */
  lemma FilterCons<T(!new)>(p: T -> bool, s: seq<T>)
    requires |s| > 0
    ensures Filter(p, s) == (if p(s[0]) then [s[0]] else []) + Filter(p, s[1..])
  {
  }

  /** `f` applied to every element of `s`. */
  function Map<A, B>(f: A -> B, s: seq<A>): (r: seq<B>)
    ensures |r| == |s|
    ensures forall i :: 0 <= i < |s| ==> r[i] == f(s[i])
  {
    seq(|s|, i requires 0 <= i < |s| => f(s[i]))
  }

  /** The predicate "differs from `x`", as a value that `Filter` accepts. */
  function IsNot<T(==,!new)>(x: T): T -> bool
  {
    y => y != x
  }

  predicate Distinct<T(==,!new)>(s: seq<T>)
  {
    forall i, j :: 0 <= i < j < |s| ==> s[i] != s[j]
  }

  lemma MapAppend<A, B>(f: A -> B, a: seq<A>, b: seq<A>)
    ensures Map(f, a + b) == Map(f, a) + Map(f, b)
  {
  }

  lemma {:induction false} FilterAppend<T(!new)>(p: T -> bool, a: seq<T>, b: seq<T>)
    ensures Filter(p, a + b) == Filter(p, a) + Filter(p, b)
  {
    if |a| == 0 {
      assert a + b == b;
    } else {
      assert (a + b)[0] == a[0];
      assert (a + b)[1..] == a[1..] + b;
      FilterAppend(p, a[1..], b);
    }
  }

  /** Filtering with a predicate every element satisfies changes nothing. */
  lemma {:induction false} FilterKeepsAll<T(!new)>(p: T -> bool, s: seq<T>)
    requires forall x :: x in s ==> p(x)
    ensures Filter(p, s) == s
  {
    if |s| > 0 {
      assert forall x :: x in s[1..] ==> x in s;
      FilterKeepsAll(p, s[1..]);
      assert s == [s[0]] + s[1..];
    }
  }

  lemma {:induction false} FilterCommutes<T(!new)>(p: T -> bool, q: T -> bool, s: seq<T>)
    ensures Filter(p, Filter(q, s)) == Filter(q, Filter(p, s))
  {
    if |s| > 0 {
      var x := s[0];
      FilterCommutes(p, q, s[1..]);
      FilterCons(p, s);
      FilterCons(q, s);
      FilterAppend(p, if q(x) then [x] else [], Filter(q, s[1..]));
      FilterAppend(q, if p(x) then [x] else [], Filter(p, s[1..]));
      FilterCons(p, [x]);
      FilterCons(q, [x]);
    }
  }

  /** Mapping after filtering equals filtering the mapped sequence, when the
      two predicates agree through `f`. */
  lemma {:induction false} MapFilter<A(!new), B(!new)>(f: A -> B, q: A -> bool, p: B -> bool, s: seq<A>)
    requires forall x :: x in s ==> q(x) == p(f(x))
    ensures Map(f, Filter(q, s)) == Filter(p, Map(f, s))
  {
    if |s| > 0 {
      var h, t := s[0], s[1..];
      forall x | x in t ensures q(x) == p(f(x)) {
        var i :| 0 <= i < |t| && t[i] == x;
        assert s[i + 1] == x;
      }
      MapFilter(f, q, p, t);
      var m := Map(f, s);
      assert m[0] == f(h);
      assert m[1..] == Map(f, t);
      FilterCons(q, s);
      FilterCons(p, m);
      var head := if q(h) then [h] else [];
      MapAppend(f, head, Filter(q, t));
      assert Map(f, head) == (if p(f(h)) then [f(h)] else []);
    }
  }

  /** Filtering keeps any relation that holds between every earlier and
      every later element. */
  lemma {:induction false} FilterPairwise<T(!new)>(R: (T, T) -> bool, p: T -> bool, s: seq<T>)
    requires forall i, j :: 0 <= i < j < |s| ==> R(s[i], s[j])
    ensures forall i, j :: 0 <= i < j < |Filter(p, s)| ==> R(Filter(p, s)[i], Filter(p, s)[j])
  {
    if |s| > 0 {
      FilterPairwise(R, p, s[1..]);
      var rest := Filter(p, s[1..]);
      forall y | y in rest ensures R(s[0], y) {
        var k :| 0 <= k < |s| - 1 && s[1..][k] == y;
        assert s[k + 1] == y;
      }
    }
  }

  lemma FilterDistinct<T(!new)>(p: T -> bool, s: seq<T>)
    requires Distinct(s)
    ensures Distinct(Filter(p, s))
  {
    FilterPairwise((a: T, b: T) => a != b, p, s);
  }
}

=== FILE: sorting.dfy ===
/**
  Sorting lists of rule numbers, and the fact the sync gate rests on: two
  lists sort to the same list exactly when they hold the same numbers with
  the same multiplicities.
*/
module Sorting {

  predicate Sorted(s: seq<int>)
  {
    forall i, j :: 0 <= i < j < |s| ==> s[i] <= s[j]
  }

  /** Inserts `x` into the sorted list `s` before its first larger element. */
  function Insert(x: int, s: seq<int>): (r: seq<int>)
    requires Sorted(s)
    ensures Sorted(r)
    ensures multiset(r) == multiset(s) + multiset{x}
  {
    if |s| == 0 then [x]
    else if x <= s[0] then
      ConsSorted(x, s);
      [x] + s
    else
      assert s == [s[0]] + s[1..];
      var t := Insert(x, s[1..]);
      assert forall y :: y in t ==> y in multiset(s[1..]) + multiset{x};
      ConsSorted(s[0], t);
      [s[0]] + t
  }

  /** Putting a lower bound of a sorted list in front keeps it sorted. */
  lemma ConsSorted(h: int, t: seq<int>)
    requires Sorted(t)
    requires forall y :: y in t ==> h <= y
    ensures Sorted([h] + t)
  {
    var r := [h] + t;
    forall i, j | 0 <= i < j < |r| ensures r[i] <= r[j] {
      assert r[j] == t[j - 1] && t[j - 1] in t;
      if i > 0 {
        assert r[i] == t[i - 1];
      }
    }
  }

  /** The list `s` in ascending order (Python's `list.sort()`). */
  function Sort(s: seq<int>): (r: seq<int>)
    ensures Sorted(r)
    ensures multiset(r) == multiset(s)
  {
    if |s| == 0 then []
    else
      assert s == [s[0]] + s[1..];
      Insert(s[0], Sort(s[1..]))
  }

  lemma SortedHeadIsLeast(a: seq<int>, y: int)
    requires Sorted(a) && y in a
    ensures a[0] <= y
  {
  }

  /** A sorted list is determined by its multiset of elements. */
  lemma {:induction false} SortedUnique(a: seq<int>, b: seq<int>)
    requires Sorted(a) && Sorted(b)
    requires multiset(a) == multiset(b)
    ensures a == b
  {
    assert |a| == |multiset(a)| == |multiset(b)| == |b|;
    if |a| > 0 {
      SameHeads(a, b);
      SameTails(a, b);
      SortedTail(a);
      SortedTail(b);
      SortedUnique(a[1..], b[1..]);
      assert a == [a[0]] + a[1..] && b == [b[0]] + b[1..];
    }
  }

  /** Sorted lists with the same elements start with the same element. */
  lemma SameHeads(a: seq<int>, b: seq<int>)
    requires Sorted(a) && Sorted(b) && |a| > 0 && |b| > 0
    requires multiset(a) == multiset(b)
    ensures a[0] == b[0]
  {
    assert a[0] in multiset(b) && b[0] in multiset(a);
    SortedHeadIsLeast(b, a[0]);
    SortedHeadIsLeast(a, b[0]);
  }

  lemma SameTails(a: seq<int>, b: seq<int>)
    requires |a| > 0 && |b| > 0 && a[0] == b[0]
    requires multiset(a) == multiset(b)
    ensures multiset(a[1..]) == multiset(b[1..])
  {
    MultisetTail(a);
    MultisetTail(b);
  }

  lemma SortedTail(a: seq<int>)
    requires Sorted(a) && |a| > 0
    ensures Sorted(a[1..])
  {
    forall i, j | 0 <= i < j < |a| - 1 ensures a[1..][i] <= a[1..][j] {
      assert a[1..][i] == a[i + 1] && a[1..][j] == a[j + 1];
    }
  }

  lemma MultisetTail(a: seq<int>)
    requires |a| > 0
    ensures multiset(a[1..]) == multiset(a) - multiset{a[0]}
  {
    assert a == [a[0]] + a[1..];
  }

  /** The sync gate: compare the two lists after sorting each. */
  predicate SameSorted(a: seq<int>, b: seq<int>)
    ensures SameSorted(a, b) ==> |a| == |b|
  {
    Sort(a) == Sort(b)
  }

  /** Comparing sorted lists is comparing multisets: the gate passes exactly
      when one list is a permutation of the other. */
  lemma SortedAgreeIffPermutation(a: seq<int>, b: seq<int>)
    ensures SameSorted(a, b) <==> multiset(a) == multiset(b)
  {
    if multiset(a) == multiset(b) {
      SortedUnique(Sort(a), Sort(b));
    }
  }
}

=== FILE: stores.dfy ===
/**
  The three stores the Lambda function keeps in step, as immutable values —
  the DynamoDB state table, the VPC network ACLs and the two WAF IP sets —
  and the state effect of each backend call the rotation makes. Every call
  is modelled as succeeding.
*/
module Stores {
  import opened Seqs
  import opened ReservedRange

  type AclId = string
  type Ip = string

  datatype RuleAction = Allow | Deny

  /** One entry of a network ACL as describe_network_acls lists it; ingress
      and egress entries share one list. */
  datatype NaclEntry = NaclEntry(
    ruleNo: int,
    egress: bool,
    cidrBlock: string,
    protocol: string,
    portFrom: int,
    portTo: int,
    action: RuleAction)

  /** One item of the state table. The key is (aclId, createdAt); the table
      stores RuleNo as a string and the function reads it back with int(),
      a round trip that is the identity on the numbers it writes. */
  datatype Record = Record(aclId: AclId, createdAt: int, hostIp: Ip, ruleNo: int, region: string)

  /** A WAF IP set holds `ip/32` IPV4 descriptors; the model keeps the ip. */
  datatype State = State(
    table: seq<Record>,
    nacls: map<AclId, seq<NaclEntry>>,
    albIpSet: set<Ip>,
    cloudfrontIpSet: set<Ip>)

  // ---------------------------------------------------------------------
  // Predicates the table queries and scans filter with
  // ---------------------------------------------------------------------

  function AclIs(acl: AclId): Record -> bool
  {
    (r: Record) => r.aclId == acl
  }

  function HostIn(acl: AclId, ip: Ip): Record -> bool
  {
    (r: Record) => r.aclId == acl && r.hostIp == ip
  }

  function KeyIsNot(acl: AclId, createdAt: int): Record -> bool
  {
    (r: Record) => !(r.aclId == acl && r.createdAt == createdAt)
  }

  function NewerWithHost(since: int, ip: Ip): Record -> bool
  {
    (r: Record) => r.createdAt > since && r.hostIp == ip
  }

  function RecordRuleNo(r: Record): int
  {
    r.ruleNo
  }

  function EntryRuleNo(e: NaclEntry): int
  {
    e.ruleNo
  }

  function NotIngressRule(n: int): NaclEntry -> bool
  {
    (e: NaclEntry) => e.egress || e.ruleNo != n
  }

  // ---------------------------------------------------------------------
  // DynamoDB state table
  // ---------------------------------------------------------------------

  /** table.query on the partition key: the records of one network ACL. */
  function Query(t: seq<Record>, acl: AclId): (r: seq<Record>)
    ensures forall x :: x in r <==> x in t && x.aclId == acl
  {
    Filter(AclIs(acl), t)
  }

  /** table.query on the partition key with a filter on HostIp. */
  function QueryHost(t: seq<Record>, acl: AclId, ip: Ip): (r: seq<Record>)
    ensures forall x :: x in r <==> x in t && x.aclId == acl && x.hostIp == ip
  {
    Filter(HostIn(acl, ip), t)
  }

  /** table.scan over every network ACL for records newer than `since`
      whose HostIp is `ip`. */
  function ScanNewer(t: seq<Record>, since: int, ip: Ip): (r: seq<Record>)
    ensures forall x :: x in r <==> x in t && x.createdAt > since && x.hostIp == ip
  {
    Filter(NewerWithHost(since, ip), t)
  }

  /** The RuleNo of every record of one network ACL, in table order. */
  function DdbRuleNumbers(t: seq<Record>, acl: AclId): (r: seq<int>)
    ensures |r| == |Query(t, acl)|
    ensures forall i :: 0 <= i < |r| ==> r[i] == Query(t, acl)[i].ruleNo
  {
    Map(RecordRuleNo, Query(t, acl))
  }

  /** delete_ddb_rule: delete_item by key. */
  function DeleteDdbRule(t: seq<Record>, acl: AclId, createdAt: int): (r: seq<Record>)
    ensures forall x :: x in r <==> x in t && !(x.aclId == acl && x.createdAt == createdAt)
  {
    Filter(KeyIsNot(acl, createdAt), t)
  }

  /** create_ddb_rule: put_item, which replaces an item with the same key. */
  function CreateDdbRule(t: seq<Record>, acl: AclId, ip: Ip, ruleNo: int, region: string, now: int): (r: seq<Record>)
    ensures forall x :: x in r <==>
      x == Record(acl, now, ip, ruleNo, region) || (x in t && !(x.aclId == acl && x.createdAt == now))
  {
    DeleteDdbRule(t, acl, now) + [Record(acl, now, ip, ruleNo, region)]
  }

  /** Every record is older than `now`: the time of the invocation. */
  predicate Fresh(t: seq<Record>, now: int)
  {
    forall r :: r in t ==> r.createdAt < now
  }

  /** With a fresh timestamp put_item replaces nothing: it appends. */
  lemma CreateFresh(t: seq<Record>, acl: AclId, ip: Ip, ruleNo: int, region: string, now: int)
    requires Fresh(t, now)
    ensures CreateDdbRule(t, acl, ip, ruleNo, region, now) == t + [Record(acl, now, ip, ruleNo, region)]
  {
    FilterKeepsAll(KeyIsNot(acl, now), t);
  }

  // ---------------------------------------------------------------------
  // Network ACLs
  // ---------------------------------------------------------------------

  function RuleNumbers(es: seq<NaclEntry>): seq<int>
  {
    Map(EntryRuleNo, es)
  }

  /** get_nacl_rules: the rule numbers of all entries, filtered to the
      reserved range. */
  function GetNaclRules(es: seq<NaclEntry>): (r: seq<int>)
    ensures forall x :: x in r ==> InReserved(x)
    ensures forall i :: 0 <= i < |es| && InReserved(es[i].ruleNo) ==> es[i].ruleNo in r
    ensures forall x :: multiset(r)[x] == if InReserved(x) then multiset(RuleNumbers(es))[x] else 0
  {
    FilterMultiset(InReserved, RuleNumbers(es));
    assert forall i :: 0 <= i < |es| ==> RuleNumbers(es)[i] == es[i].ruleNo;
    Filter(InReserved, RuleNumbers(es))
  }

  /** The entry create_netacl_rule installs: ingress, deny, all protocols,
      ports 0 to 65535, for the host's /32. */
  function DenyEntry(ip: Ip, ruleNo: int): NaclEntry
  {
    NaclEntry(ruleNo, false, ip + "/32", "-1", 0, 65535, Deny)
  }

  /** create_netacl_rule: create_entry adds one entry. */
  function CreateNetaclRule(es: seq<NaclEntry>, ip: Ip, ruleNo: int): (r: seq<NaclEntry>)
    ensures forall e :: e in r <==> e in es || e == DenyEntry(ip, ruleNo)
  {
    es + [DenyEntry(ip, ruleNo)]
  }

  /** Installing a rule in the reserved range appends its number to the
      reserved list. */
  lemma CreateTakesSlot(es: seq<NaclEntry>, ip: Ip, n: int)
    requires InReserved(n)
    ensures GetNaclRules(CreateNetaclRule(es, ip, n)) == GetNaclRules(es) + [n]
  {
    MapAppend(EntryRuleNo, es, [DenyEntry(ip, n)]);
    assert Map(EntryRuleNo, [DenyEntry(ip, n)]) == [n];
    assert RuleNumbers(CreateNetaclRule(es, ip, n)) == RuleNumbers(es) + [n];
    FilterAppend(InReserved, RuleNumbers(es), [n]);
    FilterCons(InReserved, [n]);
    assert [n][1..] == [];
    assert Filter(InReserved, [n]) == [n];
  }

  /** delete_netacl_rule: delete_entry with Egress=False removes the ingress
      entry with that rule number. */
  function DeleteNetaclRule(es: seq<NaclEntry>, ruleNo: int): (r: seq<NaclEntry>)
    ensures forall e :: e in r <==> e in es && (e.egress || e.ruleNo != ruleNo)
  {
    Filter(NotIngressRule(ruleNo), es)
  }

  /** No egress entry uses a reserved rule number. */
  predicate EgressFree(es: seq<NaclEntry>)
  {
    forall e :: e in es && e.egress ==> !InReserved(e.ruleNo)
  }

  /** When only ingress entries use reserved numbers, deleting the ingress
      rule `n` removes `n` from the reserved list and nothing else. */
  lemma DeleteFreesSlot(es: seq<NaclEntry>, n: int)
    requires EgressFree(es) && InReserved(n)
    ensures GetNaclRules(DeleteNetaclRule(es, n)) == Filter(IsNot(n), GetNaclRules(es))
  {
    MapFilter(EntryRuleNo, NotIngressRule(n), IsNot(n), es);
    FilterCommutes(InReserved, IsNot(n), RuleNumbers(es));
  }

  // ---------------------------------------------------------------------
  // WAF IP sets
  // ---------------------------------------------------------------------

  datatype WafAction = Insert | Delete

  /** waf_update_ip_set: one INSERT or DELETE of a host's descriptor. */
  function WafUpdateIpSet(ipSet: set<Ip>, action: WafAction, ip: Ip): (r: set<Ip>)
    ensures ip in r <==> action == Insert
    ensures forall other :: other != ip ==> (other in r <==> other in ipSet)
  {
    match action
    case Insert => ipSet + {ip}
    case Delete => ipSet - {ip}
  }
}
